=== FILE: README.md ===
# GymTracker core, modelled in Dafny

GymTracker is a single-page fitness tracker. One component holds all of its
logic: a weekly workout plan looked up by day of the week, a per-date
workout completion log, a running nutrition record (calorie and protein
totals plus the meals eaten), a list of weight samples, and a meal scanner
that asks a generative model about a photo and pulls a JSON object out of
its reply. Every tracked value is kept in memory and written to the
browser's local storage under its own key after each change.

This project models that logic, separated from the rendering:

- `Schedule` (schedule.dfy): the weekly plan as a pure lookup from the day
  of the week to an optional plan. Saturday matches no branch and yields
  `None`, as the source yields `undefined`.
- `Logs` (logs.dfy): the value types and the pure transitions the handlers
  apply: mark a date complete, add a meal, log a weight. The nutrition
  invariant (totals equal the sums over the meal list) is defined here and
  proved preserved.
- `Storage` (storage.dfy): local storage as a map from key to stored
  entry, the three fixed keys, the JSON form of the weight list (a weight
  is a number or null), and the loaders that fall back to `{}`, zeros
  with an empty meal list, and `[]`.
- `MealScan` (mealscan.dfy): the greedy `\{[\s\S]*\}` extraction over
  strings, the truthiness check of the parsed fields, and the decision
  between adding a meal and each of the four error messages.
- `Tracker` (tracker.dfy): the component as a class `App` whose fields are
  the tracked values, the weight input text, the scanner error and the
  store. Each handler is a method; each handler that changes a tracked
  value replaces that one field and writes it under its own key. Every
  handler keeps `Persisted()` (each field equals what
  loading it back from the store gives, the weight list after its JSON
  round trip).

The date key and the day of the week are inputs. JSON.parse and parseFloat
are parameters (`parse`, `parseFloat`): the model says what the code does
with whatever they return.

Where the code's behaviour may not be what was intended, the model follows
the code:

- A non-empty weight text that is not a number is not refused. The code
  checks only for the empty string and appends whatever parseFloat gives,
  NaN included (`Logs.LogWeight`, `Tracker.App.AddWeight`). JSON.stringify
  writes a NaN or infinite weight as null, so such an entry reads back from
  the store as null, not as the value held in memory
  (`Storage.WeightRoundTrip`). This path needs the handler to receive
  non-numeric text; the weight field is a number input
  (src/App.jsx:467), for which the browser normally reports such text as
  the empty string, which is refused.
- The Saturday gap is kept as `None`, not filled with a plan. The home
  tab reads the plan's name without a guard (src/App.jsx:235), so on a
  Saturday rendering the default tab fails; rendering is not modelled.
- A zero calorie or protein count is refused as invalid data, as the code
  does (`MealScan.ZeroCaloriesRejected`).

## Model

| member | source | states |
|---|---|---|
| `Schedule.GetWorkoutPlan` | src/App.jsx:31-103 | a plan exists exactly for days 0..5; rest plans are exactly those without exercises and with a quote, the others carry a goal; every set count is at least one |
| `Schedule.SundayIsRest` | src/App.jsx:32-39 | day 0 is 'REST DAY', kind rest, no exercises, the fixed quote |
| `Schedule.PullDays` | src/App.jsx:40-56 | days 1 and 4 give the same 'PULL' plan with 8 exercises |
| `Schedule.PushDaysAgree` | src/App.jsx:57-102 | the Tuesday and Wednesday branches, written separately, give identical 'PUSH' plans with 7 exercises |
| `Schedule.FridayIsLegs` | src/App.jsx:73-85 | day 5 gives 'LEGS & CARDIO' with 4 items |
| `Schedule.SaturdayHasNoPlan` | src/App.jsx:31-103 | day 6 falls through every branch: no plan |
| `Schedule.KindDeterminesPlan` | src/App.jsx:31-103 | two days share a plan iff they share a plan kind |
| `Logs.MarkComplete` | src/App.jsx:109 | afterwards the date reads as complete, the keys are the old keys plus the date, every other key keeps its value, nothing complete becomes incomplete |
| `Logs.MarkCompleteIdempotent` | src/App.jsx:108-112 | marking twice equals marking once |
| `Logs.MarkCompleteNoOpWhenDone` | src/App.jsx:106-112 | marking a date already complete leaves the log unchanged |
| `Logs.WithMeal` | src/App.jsx:115-120 | totals rise by exactly the meal's values; the meal is appended last and earlier meals are untouched |
| `Logs.CaloriesOfAppend` | src/App.jsx:117-119 | the calorie sum of a list with one more meal is the old sum plus that meal's calories |
| `Logs.ProteinOfAppend` | src/App.jsx:118-119 | the same for protein |
| `Logs.WithMealKeepsBalanced` | src/App.jsx:114-124 | adding a meal preserves "totals equal the sums over the meal list" |
| `Logs.ZeroedIsBalanced` | src/App.jsx:135-138 | the zeroed record (initial default and reset value) satisfies the invariant |
| `Logs.TwoMealsAccumulate` | src/App.jsx:114-124 | two sequential adds accumulate both totals additively and keep meal order |
| `Logs.WithMealsFromZero` | src/App.jsx:114-124 | adding meals one by one from the zeroed record yields exactly that meal list |
| `Logs.SumsFromZero` | src/App.jsx:114-124 | the totals reached by adding meals from zero are the sums over those meals |
| `Logs.BalancedIsSumOfMeals` | src/App.jsx:114-124 | a record satisfying the invariant is the one its meal list builds from the zeroed default |
| `Logs.LogWeight` | src/App.jsx:126-133 | empty input leaves the list as is; otherwise exactly one entry (date key, parsed reading) is appended last and earlier entries are unchanged |
| `Storage.EncodeWeights` | src/App.jsx:131 | the JSON form keeps every date and every finite weight; a weight is written as a number exactly when it is a number, otherwise as null |
| `Storage.DecodeWeights` | src/App.jsx:18-19 | reading the JSON back keeps every date; a weight reads as the same number where one was stored and as null otherwise |
| `Storage.EncodeDecode` | src/App.jsx:18-19 | stored weight JSON read back and written again is the same text |
| `Storage.WeightRoundTrip` | src/App.jsx:128-131 | a weight list survives the JSON round trip unchanged iff it holds no NaN or infinity; otherwise exactly those readings come back as null |
| `Storage.LoadWorkouts` | src/App.jsx:9-12 | exactly the log stored under 'workouts' when there is one, or `{}` when the key is absent |
| `Storage.LoadNutrition` | src/App.jsx:13-16 | exactly the record stored under 'nutrition' when there is one, or zero totals with no meals when the key is absent |
| `Storage.LoadWeight` | src/App.jsx:17-20 | exactly the list stored under 'weight' as read back from JSON (numbers or null only) when there is one, or `[]` when the key is absent |
| `Storage.EmptyStoreDefaults` | src/App.jsx:9-20 | with nothing stored the loads give `{}`, zero totals with no meals, and `[]` |
| `Storage.SaveLoadRoundTrip` | src/App.jsx:9-20 | the log and the nutrition record saved under their keys load back unchanged, the weight list loads back as its JSON round trip, and saving under one key leaves the other two loads as they were |
| `MealScan.FirstIndexOf` | src/App.jsx:172 | the position found holds the character and none before it does; None iff the character is absent |
| `MealScan.LastIndexOf` | src/App.jsx:172 | the position found holds the character and none after it does; None iff the character is absent |
| `MealScan.ExtractJson` | src/App.jsx:172 | a match begins with `{`, ends with `}`, and is a contiguous slice of the reply |
| `MealScan.ExtractJsonIsLeftmostLongest` | src/App.jsx:172-178 | there is a match iff some `}` follows some `{`; the match starts at the first `{` and ends at the last `}`: no matching slice starts earlier or ends later |
| `MealScan.WholeObjectExtracted` | src/App.jsx:172 | a reply that is one `{...}` object is extracted whole |
| `MealScan.ValidateMeal` | src/App.jsx:182-187 | a meal is built iff name, calories and protein are all truthy, and it carries exactly those field values |
| `MealScan.AnalyzeReply` | src/App.jsx:150-193 | accepted iff the reply text has a match that parses to valid fields, and the meal accepted is the one built from those fields; each failure gives its own message: unreadable image, no match, parse or service error, invalid fields |
| `MealScan.ZeroCaloriesRejected` | src/App.jsx:182-190 | a zero calorie count is refused with 'Invalid meal data received' |
| `MealScan.ZeroProteinRejected` | src/App.jsx:182-190 | a zero protein count is refused with 'Invalid meal data received' |
| `Tracker.App.constructor` | src/App.jsx:9-24 | each field is loaded from its key or takes its default, the default nutrition record is balanced, input and error start empty, memory agrees with the store |
| `Tracker.App.IsWorkoutComplete` | src/App.jsx:106 | a date missing from the log reads as not complete; otherwise its stored flag |
| `Tracker.App.CompleteWorkout` | src/App.jsx:108-112 | the date becomes complete, other dates keep their values, only the 'workouts' entry is written, a repeat call changes nothing |
| `Tracker.App.AddMeal` | src/App.jsx:114-124 | totals rise by the meal, it is appended last, the invariant is kept, only the 'nutrition' entry is written |
| `Tracker.App.AddWeight` | src/App.jsx:126-133 | empty input changes nothing; otherwise one entry is appended, only the 'weight' entry is written and the input is cleared |
| `Tracker.App.EnterWeight` | src/App.jsx:467 | the typed text becomes the weight input and nothing else changes |
| `Tracker.App.ResetNutrition` | src/App.jsx:135-138 | whatever the prior state, the record is zeroed in memory and in the 'nutrition' entry; nothing else changes |
| `Tracker.App.ScanMeal` | src/App.jsx:144-195 | an accepted reply adds the meal built from the parsed fields as the last meal and leaves the error empty; every rejection sets its message and leaves nutrition and the store untouched |

## Left out

- Rendering, tab switching, the scanner modal flag and the loading flag: user interface only.
- Progress-ring percentages, chart coordinates and the 28-day calendar: floating-point display arithmetic and `Date` arithmetic.
- Computing the date key and the day of the week from the clock: both are inputs.
- Reading the file, base64 splitting and the call to the generative model: the outcome is the `Reply` input (unreadable image, service error, or reply text). The outer "Error processing image" path, raised only if creating the file reader throws, is not modelled.
- JSON text: the completion log and the nutrition record are stored as the values they encode, so their round trip is lossless by construction, which for the nutrition totals holds only while they stay integers of magnitude at most 2^53 (see the next two lines); the weight list is stored in its JSON form, with non-finite weights as null. An entry of another shape under a key loads as that key's default; the code would use whatever JSON.parse returns, and would throw on malformed text.
- JSON.parse and parseFloat are parameters; their parsing is not modelled. The parsed meal object keeps only the three fields the scanner reads, with a string name and integer numbers; non-string names and non-integer numbers are not modelled.
- `MealScan.ValidateMeal`: does not model Math.round on doubles; counts are already integers, so a fractional count such as 0.4, which passes the truthiness check and then rounds to 0, is not captured.
- Logs.WithMeal: the calorie and protein totals are exact unbounded integers. The source adds them as IEEE doubles, which are exact only up to 2^53 (2^53 + 1 gives 2^53) and overflow to Infinity past the largest double; JSON.stringify then stores an infinite total as null, so the record no longer loads back as held. Neither the rounding nor the overflow is modelled.
- Tracker.App.AddMeal: inherits the same limit from `Logs.WithMeal`: its new totals and the stored record are exact integer sums, not double-precision sums.
- Tracker.App.ScanMeal: does not model the asynchronous reply. The source adds the scanned meal through the add-meal handler captured when the photo was picked, so it adds to the nutrition record of that moment. A preset meal or a reset made while the reply is pending is then overwritten by that stale record plus the scanned meal. The model adds to the current record.
- The preset meal buttons only call the add-meal handler with literal meals; they are not modelled separately.

=== FILE: logs.dfy ===
/**
 * The three tracked values and the pure transitions the handlers apply to
 * them: the completion log, the nutrition record and the weight list.
 */
module Logs {

  /** A logged meal. Calories and protein are integers (the scanner rounds them). */
  datatype Meal = Meal(name: string, calories: int, protein: int)

  /** The nutrition record: running totals plus the meals eaten, oldest first. */
  datatype Nutrition = Nutrition(calories: int, protein: int, meals: seq<Meal>)

  /**
   * A weight value as the component holds it: what parseFloat yields for the
   * weight text (a number, NaN or an infinity), or null, which is what a
   * non-finite value reads back as after a JSON round trip.
   */
  datatype Reading = Number(kg: real) | NaN | Infinity(negative: bool) | Null

  /** One weight sample: the date key it was entered on and the reading. */
  datatype WeightEntry = WeightEntry(date: string, weight: Reading)

  /** The empty nutrition record used as default and by reset. */
  const Zeroed := Nutrition(0, 0, [])

  // ---------------------------------------------------------------- completion

  /** `workouts[dateKey]` read as a truth value: a missing key reads as false. */
  predicate IsComplete(log: map<string, bool>, dateKey: string) {
    dateKey in log && log[dateKey]
  }

  /** The completion log with `dateKey` set to true. */
  function MarkComplete(log: map<string, bool>, dateKey: string): (r: map<string, bool>)
    ensures IsComplete(r, dateKey)
    ensures r.Keys == log.Keys + {dateKey}
    ensures forall k :: k in log && k != dateKey ==> r[k] == log[k]
    ensures forall k :: IsComplete(log, k) ==> IsComplete(r, k)
  {
    log[dateKey := true]
  }

  /** Marking a date twice is the same as marking it once. */
  lemma MarkCompleteIdempotent(log: map<string, bool>, dateKey: string)
    ensures MarkComplete(MarkComplete(log, dateKey), dateKey) == MarkComplete(log, dateKey)
  {
  }

  /** Marking an already complete date leaves the log as it was. */
  lemma MarkCompleteNoOpWhenDone(log: map<string, bool>, dateKey: string)
    requires IsComplete(log, dateKey)
    ensures MarkComplete(log, dateKey) == log
  {
  }

  // ---------------------------------------------------------------- nutrition

  /** Sum of the calories of a meal list, oldest meal first. */
  function CaloriesOf(meals: seq<Meal>): int {
    if meals == [] then 0 else meals[0].calories + CaloriesOf(meals[1..])
  }

  /** Sum of the protein of a meal list, oldest meal first. */
  function ProteinOf(meals: seq<Meal>): int {
    if meals == [] then 0 else meals[0].protein + ProteinOf(meals[1..])
  }

  /** The invariant of the nutrition record: its totals are the sums over its meals. */
  predicate Balanced(n: Nutrition) {
    n.calories == CaloriesOf(n.meals) && n.protein == ProteinOf(n.meals)
  }

  /** The nutrition record after eating `meal`. */
  function WithMeal(n: Nutrition, meal: Meal): (r: Nutrition)
    ensures r.calories - n.calories == meal.calories
    ensures r.protein - n.protein == meal.protein
    ensures |r.meals| == |n.meals| + 1
    ensures r.meals[..|n.meals|] == n.meals && r.meals[|n.meals|] == meal
  {
    n.(calories := n.calories + meal.calories,
       protein := n.protein + meal.protein,
       meals := n.meals + [meal])
  }

  lemma {:induction false} CaloriesOfAppend(meals: seq<Meal>, meal: Meal)
    ensures CaloriesOf(meals + [meal]) == CaloriesOf(meals) + meal.calories
  {
    if meals != [] {
      assert (meals + [meal])[1..] == meals[1..] + [meal];
      CaloriesOfAppend(meals[1..], meal);
    }
  }

  lemma {:induction false} ProteinOfAppend(meals: seq<Meal>, meal: Meal)
    ensures ProteinOf(meals + [meal]) == ProteinOf(meals) + meal.protein
  {
    if meals != [] {
      assert (meals + [meal])[1..] == meals[1..] + [meal];
      ProteinOfAppend(meals[1..], meal);
    }
  }

  /** Adding a meal keeps the totals equal to the sums over the meal list. */
  lemma WithMealKeepsBalanced(n: Nutrition, meal: Meal)
    requires Balanced(n)
    ensures Balanced(WithMeal(n, meal))
  {
    CaloriesOfAppend(n.meals, meal);
    ProteinOfAppend(n.meals, meal);
  }

  /** The zeroed record is balanced, so reset re-establishes the invariant. */
  lemma ZeroedIsBalanced()
    ensures Balanced(Zeroed)
  {
  }

  /** Two meals in a row add both totals and keep their order. */
  lemma TwoMealsAccumulate(n: Nutrition, a: Meal, b: Meal)
    ensures WithMeal(WithMeal(n, a), b)
            == Nutrition(n.calories + a.calories + b.calories,
                         n.protein + a.protein + b.protein,
                         n.meals + [a, b])
  {
  }

  /** The balanced record is determined by its meal list alone. */
  lemma {:induction false} BalancedIsSumOfMeals(n: Nutrition)
    requires Balanced(n)
    ensures n == WithMealsFromZero(n.meals)
  {
    SumsFromZero(n.meals);
  }

  /** The record obtained by adding `meals` one by one to the zeroed record. */
  function WithMealsFromZero(meals: seq<Meal>): (r: Nutrition)
    ensures r.meals == meals
    decreases |meals|
  {
    if meals == [] then Zeroed else WithMeal(WithMealsFromZero(meals[..|meals| - 1]), meals[|meals| - 1])
  }

  lemma {:induction false} SumsFromZero(meals: seq<Meal>)
    ensures WithMealsFromZero(meals).calories == CaloriesOf(meals)
    ensures WithMealsFromZero(meals).protein == ProteinOf(meals)
    decreases |meals|
  {
    if meals != [] {
      var init := meals[..|meals| - 1];
      var last := meals[|meals| - 1];
      assert init + [last] == meals;
      SumsFromZero(init);
      CaloriesOfAppend(init, last);
      ProteinOfAppend(init, last);
    }
  }

  // ---------------------------------------------------------------- weight

  /**
   * The weight list after submitting the input text `input` on `dateKey`,
   * where `reading` is what the text parses to. Only the empty text is refused.
   */
  function LogWeight(samples: seq<WeightEntry>, dateKey: string, input: string, reading: Reading): (r: seq<WeightEntry>)
    ensures |r| == if input == "" then |samples| else |samples| + 1
    ensures r[..|samples|] == samples
    ensures input != "" ==> r[|samples|] == WeightEntry(dateKey, reading)
  {
    if input == "" then samples else samples + [WeightEntry(dateKey, reading)]
  }
}

=== FILE: mealscan.dfy ===
/**
 * The text side of the meal scanner: pulling a JSON object out of the
 * model's free-form reply with the greedy pattern `\{[\s\S]*\}`, checking
 * the parsed fields, and deciding between adding a meal and an error message.
 */
module MealScan {
  import opened Wrappers
  import opened Logs

  // ---------------------------------------------------------------- extraction

  /**
   * `s[i..j+1]` is a text the pattern `\{[\s\S]*\}` matches: it opens with
   * `{`, closes with `}`, and anything at all lies between.
   */
  predicate Brackets(s: string, i: int, j: int) {
    0 <= i < j < |s| && s[i] == '{' && s[j] == '}'
  }

  /** The first position of `c` in `s`, if any. */
  function FirstIndexOf(s: string, c: char): (r: Option<nat>)
    ensures r.Some? ==> r.value < |s| && s[r.value] == c
    ensures r.Some? ==> forall k :: 0 <= k < r.value ==> s[k] != c
    ensures r.None? ==> forall k :: 0 <= k < |s| ==> s[k] != c
  {
    if s == [] then None
    else if s[0] == c then Some(0)
    else match FirstIndexOf(s[1..], c)
      case None => None
      case Some(i) => Some(i + 1)
  }

  /** The last position of `c` in `s`, if any. */
  function LastIndexOf(s: string, c: char): (r: Option<nat>)
    ensures r.Some? ==> r.value < |s| && s[r.value] == c
    ensures r.Some? ==> forall k :: r.value < k < |s| ==> s[k] != c
    ensures r.None? ==> forall k :: 0 <= k < |s| ==> s[k] != c
  {
    if s == [] then None
    else if s[|s| - 1] == c then Some(|s| - 1)
    else LastIndexOf(s[..|s| - 1], c)
  }

  /**
   * The first match of the greedy pattern in the reply: from the first `{`
   * to the last `}`, when that `}` lies after that `{`.
   */
  function ExtractJson(text: string): (r: Option<string>)
    ensures r.Some? ==> |r.value| >= 2 && r.value[0] == '{' && r.value[|r.value| - 1] == '}'
    ensures r.Some? ==> exists i, j :: Brackets(text, i, j) && r.value == text[i..j + 1]
  {
    match FirstIndexOf(text, '{')
    case None => None
    case Some(i) =>
      match LastIndexOf(text, '}')
      case None => None
      case Some(j) => if i < j then (assert Brackets(text, i, j); Some(text[i..j + 1])) else None
  }

  /**
   * The pattern matches iff some `}` follows some `{`, and the match is the
   * leftmost-longest one: no matching slice starts earlier or ends later.
   */
  lemma ExtractJsonIsLeftmostLongest(text: string)
    ensures ExtractJson(text).Some? <==> exists i, j :: Brackets(text, i, j)
    ensures ExtractJson(text).Some? ==>
      exists i, j :: Brackets(text, i, j) && ExtractJson(text).value == text[i..j + 1]
        && forall i', j' :: Brackets(text, i', j') ==> i <= i' && j' <= j
  {
  }

  /** A reply that is itself one `{ ... }` object is extracted whole. */
  lemma WholeObjectExtracted(text: string)
    requires |text| >= 2 && text[0] == '{' && text[|text| - 1] == '}'
    ensures ExtractJson(text) == Some(text)
  {
    assert text[0..|text|] == text;
  }

  // ---------------------------------------------------------------- validation

  /**
   * The parsed object, reduced to the three fields the scanner reads; a field
   * the object lacks is None.
   */
  datatype MealFields = MealFields(name: Option<string>, calories: Option<int>, protein: Option<int>)

  /** JavaScript truthiness of a string field: present and non-empty. */
  predicate TruthyText(field: Option<string>) {
    field.Some? && field.value != ""
  }

  /** JavaScript truthiness of a number field: present and non-zero. */
  predicate TruthyNumber(field: Option<int>) {
    field.Some? && field.value != 0
  }

  /** The meal the fields describe, when all three are truthy. */
  function ValidateMeal(fields: MealFields): (r: Option<Meal>)
    ensures r.Some? <==> TruthyText(fields.name) && TruthyNumber(fields.calories) && TruthyNumber(fields.protein)
    ensures r.Some? ==> r.value.name != "" && r.value.calories != 0 && r.value.protein != 0
    ensures r.Some? ==> Some(r.value.name) == fields.name && Some(r.value.calories) == fields.calories
                        && Some(r.value.protein) == fields.protein
  {
    if TruthyText(fields.name) && TruthyNumber(fields.calories) && TruthyNumber(fields.protein) then
      Some(Meal(fields.name.value, fields.calories.value, fields.protein.value))
    else
      None
  }

  // ---------------------------------------------------------------- outcome

  const ReadFailure := "Failed to read image"
  const ParseFailure := "Could not parse meal data"
  const InvalidData := "Invalid meal data received"
  const AnalysisFailure := "Failed to analyze meal. Check your API key or try again."

  /**
   * What came back from reading the photo and asking the model: the photo had
   * no data, the call failed, or it returned a text.
   */
  datatype Reply = ImageUnreadable | ServiceError | Answer(text: string)

  datatype ScanResult = Accepted(meal: Meal) | Rejected(message: string)

  /**
   * The scanner's decision for a reply. `parse` stands for JSON.parse on the
   * extracted text; None means it threw.
   */
  function AnalyzeReply(reply: Reply, parse: string -> Option<MealFields>): (r: ScanResult)
    ensures r.Accepted? <==>
      reply.Answer? && ExtractJson(reply.text).Some? && parse(ExtractJson(reply.text).value).Some?
      && ValidateMeal(parse(ExtractJson(reply.text).value).value).Some?
    ensures r.Accepted? ==> r.meal.name != "" && r.meal.calories != 0 && r.meal.protein != 0
    ensures r.Accepted? ==> Some(r.meal) == ValidateMeal(parse(ExtractJson(reply.text).value).value)
    ensures r == Rejected(ReadFailure) <==> reply.ImageUnreadable?
    ensures r == Rejected(ParseFailure) <==> reply.Answer? && ExtractJson(reply.text).None?
    ensures r == Rejected(AnalysisFailure) <==>
      reply.ServiceError? || (reply.Answer? && ExtractJson(reply.text).Some? && parse(ExtractJson(reply.text).value).None?)
    ensures r == Rejected(InvalidData) <==>
      reply.Answer? && ExtractJson(reply.text).Some? && parse(ExtractJson(reply.text).value).Some?
      && ValidateMeal(parse(ExtractJson(reply.text).value).value).None?
  {
    match reply
    case ImageUnreadable => Rejected(ReadFailure)
    case ServiceError => Rejected(AnalysisFailure)
    case Answer(text) =>
      match ExtractJson(text)
      case None => Rejected(ParseFailure)
      case Some(json) =>
        match parse(json)
        case None => Rejected(AnalysisFailure)
        case Some(fields) =>
          match ValidateMeal(fields)
          case None => Rejected(InvalidData)
          case Some(meal) => Accepted(meal)
  }

  /** A reply whose object has a zero calorie count is refused as invalid data, like a missing field. */
  lemma ZeroCaloriesRejected(text: string, parse: string -> Option<MealFields>)
    requires ExtractJson(text).Some? && parse(ExtractJson(text).value).Some?
    requires parse(ExtractJson(text).value).value.calories == Some(0)
    ensures AnalyzeReply(Answer(text), parse) == Rejected(InvalidData)
  {
  }

  /** Likewise for a zero protein count. */
  lemma ZeroProteinRejected(text: string, parse: string -> Option<MealFields>)
    requires ExtractJson(text).Some? && parse(ExtractJson(text).value).Some?
    requires parse(ExtractJson(text).value).value.protein == Some(0)
    ensures AnalyzeReply(Answer(text), parse) == Rejected(InvalidData)
  {
  }
}

=== FILE: schedule.dfy ===
/**
 * The weekly workout plan: a fixed lookup from the day of the week
 * (0 = Sunday ... 6 = Saturday) to a plan record.
 */
module Schedule {
  import opened Wrappers

  datatype PlanKind = Rest | Pull | Push | Legs

  /** One line of a plan: the exercise, how many sets, and a free-form reps target. */
  datatype Exercise = Exercise(name: string, sets: nat, reps: string)

  /** A plan record; `goal` and `quote` are fields the source object may lack. */
  datatype Plan = Plan(
    name: string,
    kind: PlanKind,
    goal: Option<string>,
    exercises: seq<Exercise>,
    quote: Option<string>)

  const RestQuote := "The mind adapts to what we practice. Rest is productive."

  const PullExercises: seq<Exercise> := [
    Exercise("Assisted Pull-up", 4, "6-8"),
    Exercise("Close Grip Lat Pull-down", 3, "8-10"),
    Exercise("Chest Support Wide Row", 3, "8-10"),
    Exercise("Neutral Grip Vertical Row", 3, "10-12"),
    Exercise("Rear Delt Fly", 3, "12-15"),
    Exercise("Preacher Machine Curl", 3, "8-10"),
    Exercise("Incline Curl", 3, "10-12"),
    Exercise("Cross Body Hammer Curl", 2, "10-12")
  ]

  /** The push list as written in the Tuesday branch. */
  const TuesdayPushExercises: seq<Exercise> := [
    Exercise("Incline DB Press", 4, "6-8"),
    Exercise("Chest Fly", 3, "8-10"),
    Exercise("Assisted Dips", 3, "8-10"),
    Exercise("Military Press", 3, "6-8"),
    Exercise("Lateral Raises", 3, "12-15"),
    Exercise("Triceps Pushdown", 3, "10-12"),
    Exercise("Overhead Triceps Extension", 2, "10-12")
  ]

  /** The push list as written again, separately, in the Wednesday branch. */
  const WednesdayPushExercises: seq<Exercise> := [
    Exercise("Incline DB Press", 4, "6-8"),
    Exercise("Chest Fly", 3, "8-10"),
    Exercise("Assisted Dips", 3, "8-10"),
    Exercise("Military Press", 3, "6-8"),
    Exercise("Lateral Raises", 3, "12-15"),
    Exercise("Triceps Pushdown", 3, "10-12"),
    Exercise("Overhead Triceps Extension", 2, "10-12")
  ]

  const LegsExercises: seq<Exercise> := [
    Exercise("Incline Walk", 1, "12% \U{2022} 4.5 speed"),
    Exercise("Leg Press", 4, "20 (light)"),
    Exercise("Leg Extension", 3, "12-15"),
    Exercise("Plank / Face Pulls", 3, "30-45s")
  ]

  /** Every set count in a list is at least one. */
  predicate PositiveSets(exercises: seq<Exercise>) {
    forall i :: 0 <= i < |exercises| ==> exercises[i].sets >= 1
  }

  /**
   * The plan for a day of the week, in the order the source tests the days.
   * A day that matches no branch (Saturday, or anything outside 0..6)
   * yields None: the source function falls off its end and returns undefined.
   */
  function GetWorkoutPlan(dayOfWeek: int): (r: Option<Plan>)
    ensures r.Some? <==> 0 <= dayOfWeek <= 5
    ensures r.Some? ==> (r.value.kind == Rest <==> r.value.exercises == [])
    ensures r.Some? ==> (r.value.goal.Some? <==> r.value.kind != Rest)
    ensures r.Some? ==> (r.value.quote.Some? <==> r.value.kind == Rest)
    ensures r.Some? ==> PositiveSets(r.value.exercises)
  {
    if dayOfWeek == 0 then
      Some(Plan("REST DAY", Rest, None, [], Some(RestQuote)))
    else if dayOfWeek == 1 || dayOfWeek == 4 then
      Some(Plan("PULL", Pull, Some("V-Shape Width & Thickness"), PullExercises, None))
    else if dayOfWeek == 2 || dayOfWeek == 5 then
      if dayOfWeek == 2 then
        Some(Plan("PUSH", Push, Some("Upper Chest & Shoulders"), TuesdayPushExercises, None))
      else
        Some(Plan("LEGS & CARDIO", Legs, Some("Burn Fat, Preserve Muscle"), LegsExercises, None))
    else if dayOfWeek == 3 then
      Some(Plan("PUSH", Push, Some("Upper Chest & Shoulders"), WednesdayPushExercises, None))
    else
      None
  }

  /** Sunday is the rest day: no exercises, a quote and no goal. */
  lemma SundayIsRest()
    ensures GetWorkoutPlan(0).Some?
    ensures GetWorkoutPlan(0).value.name == "REST DAY"
    ensures GetWorkoutPlan(0).value.kind == Rest
    ensures GetWorkoutPlan(0).value.exercises == []
    ensures GetWorkoutPlan(0).value.quote == Some(RestQuote)
    ensures GetWorkoutPlan(0).value.goal == None
  {
  }

  /** Monday and Thursday give the same eight-exercise pull plan. */
  lemma PullDays(day: int)
    requires day == 1 || day == 4
    ensures GetWorkoutPlan(day).Some?
    ensures GetWorkoutPlan(day).value.name == "PULL" && GetWorkoutPlan(day).value.kind == Pull
    ensures |GetWorkoutPlan(day).value.exercises| == 8
    ensures GetWorkoutPlan(day) == GetWorkoutPlan(1)
  {
  }

  /** Tuesday and Wednesday, written as two separate literals, give identical seven-exercise push plans. */
  lemma PushDaysAgree()
    ensures GetWorkoutPlan(2) == GetWorkoutPlan(3)
    ensures GetWorkoutPlan(2).Some? && GetWorkoutPlan(2).value.name == "PUSH"
    ensures GetWorkoutPlan(2).value.kind == Push
    ensures |GetWorkoutPlan(2).value.exercises| == 7
  {
  }

  /** Friday gives the four-item legs and cardio plan. */
  lemma FridayIsLegs()
    ensures GetWorkoutPlan(5).Some?
    ensures GetWorkoutPlan(5).value.name == "LEGS & CARDIO" && GetWorkoutPlan(5).value.kind == Legs
    ensures |GetWorkoutPlan(5).value.exercises| == 4
  {
  }

  /** Saturday matches no branch: there is no plan. */
  lemma SaturdayHasNoPlan()
    ensures GetWorkoutPlan(6) == None
  {
  }

  /** Two days share a plan exactly when they share a plan kind: each kind has one plan. */
  lemma KindDeterminesPlan(d1: int, d2: int)
    requires GetWorkoutPlan(d1).Some? && GetWorkoutPlan(d2).Some?
    ensures GetWorkoutPlan(d1).value.kind == GetWorkoutPlan(d2).value.kind
            <==> GetWorkoutPlan(d1) == GetWorkoutPlan(d2)
  {
  }
}

=== FILE: storage.dfy ===
/**
 * The browser's key-value store as the tracker uses it: three fixed keys,
 * each holding the JSON form of one tracked value, and the loaders that read
 * a value back or fall back to its default when the key is absent.
 */
module Storage {
  import opened Wrappers
  import opened Logs

  const WorkoutsKey := "workouts"
  const NutritionKey := "nutrition"
  const WeightKey := "weight"

  /**
   * A weight sample in JSON: the weight is a finite number or null, since
   * JSON has no NaN and no infinities.
   */
  datatype JsonEntry = JsonEntry(date: string, weight: Option<real>)

  /**
   * A stored entry: the JSON text of one tracked value. The completion log
   * and the nutrition record hold only strings, booleans and integers, which
   * JSON carries unchanged, so they are kept as the values themselves.
   */
  datatype Blob =
    | WorkoutsJson(log: map<string, bool>)
    | NutritionJson(state: Nutrition)
    | WeightJson(entries: seq<JsonEntry>)

  type Store = map<string, Blob>

  /** JSON.stringify of a reading: a number stays, anything else is written as null. */
  function EncodeReading(reading: Reading): Option<real> {
    if reading.Number? then Some(reading.kg) else None
  }

  /** JSON.parse of a stored weight: a number, or null. */
  function DecodeReading(json: Option<real>): Reading {
    if json.Some? then Number(json.value) else Null
  }

  /** The weight list as JSON.stringify writes it. */
  function EncodeWeights(samples: seq<WeightEntry>): (r: seq<JsonEntry>)
    ensures |r| == |samples|
    ensures forall k :: 0 <= k < |r| ==> r[k].date == samples[k].date
    ensures forall k :: 0 <= k < |r| ==> (r[k].weight.Some? <==> samples[k].weight.Number?)
    ensures forall k :: 0 <= k < |r| && samples[k].weight.Number? ==> r[k].weight.value == samples[k].weight.kg
  {
    seq(|samples|, k requires 0 <= k < |samples| => JsonEntry(samples[k].date, EncodeReading(samples[k].weight)))
  }

  /** The weight list as JSON.parse reads it back. */
  function DecodeWeights(entries: seq<JsonEntry>): (r: seq<WeightEntry>)
    ensures |r| == |entries|
    ensures forall k :: 0 <= k < |r| ==> r[k].date == entries[k].date
    ensures forall k :: 0 <= k < |r| ==> r[k].weight.Number? || r[k].weight.Null?
    ensures forall k :: 0 <= k < |r| ==> (r[k].weight.Number? <==> entries[k].weight.Some?)
    ensures forall k :: 0 <= k < |r| && entries[k].weight.Some? ==> r[k].weight == Number(entries[k].weight.value)
  {
    seq(|entries|, k requires 0 <= k < |entries| => WeightEntry(entries[k].date, DecodeReading(entries[k].weight)))
  }

  /** Every reading is one JSON can carry: a number or null. */
  predicate JsonExpressible(samples: seq<WeightEntry>) {
    forall k :: 0 <= k < |samples| ==> samples[k].weight.Number? || samples[k].weight.Null?
  }

  /** Stored JSON read back and written again is the same text. */
  lemma EncodeDecode(entries: seq<JsonEntry>)
    ensures EncodeWeights(DecodeWeights(entries)) == entries
  {
    var back := EncodeWeights(DecodeWeights(entries));
    forall k | 0 <= k < |entries| ensures back[k] == entries[k] {
    }
  }

  /**
   * A weight list survives the JSON round trip unchanged exactly when it
   * holds no NaN or infinity; otherwise those readings come back as null and
   * everything else is kept.
   */
  lemma WeightRoundTrip(samples: seq<WeightEntry>)
    ensures DecodeWeights(EncodeWeights(samples)) == samples <==> JsonExpressible(samples)
    ensures forall k :: 0 <= k < |samples| ==>
      DecodeWeights(EncodeWeights(samples))[k]
        == if samples[k].weight.Number? then samples[k] else WeightEntry(samples[k].date, Null)
  {
    var back := DecodeWeights(EncodeWeights(samples));
    if JsonExpressible(samples) {
      forall k | 0 <= k < |samples| ensures back[k] == samples[k] {
      }
    }
  }

  /** The completion log held under its key, or the empty log. */
  function LoadWorkouts(store: Store): (r: map<string, bool>)
    ensures WorkoutsKey !in store ==> r == map[]
    ensures WorkoutsKey in store && store[WorkoutsKey].WorkoutsJson? ==> r == store[WorkoutsKey].log
  {
    if WorkoutsKey in store && store[WorkoutsKey].WorkoutsJson? then store[WorkoutsKey].log else map[]
  }

  /** The nutrition record held under its key, or the zeroed record. */
  function LoadNutrition(store: Store): (r: Nutrition)
    ensures NutritionKey !in store ==> r == Zeroed
    ensures NutritionKey in store && store[NutritionKey].NutritionJson? ==> r == store[NutritionKey].state
  {
    if NutritionKey in store && store[NutritionKey].NutritionJson? then store[NutritionKey].state else Zeroed
  }

  /** The weight list held under its key, read back from JSON, or the empty list. */
  function LoadWeight(store: Store): (r: seq<WeightEntry>)
    ensures WeightKey !in store ==> r == []
    ensures WeightKey in store && store[WeightKey].WeightJson? ==> r == DecodeWeights(store[WeightKey].entries)
    ensures r == [] || store[WeightKey] == WeightJson(EncodeWeights(r))
    ensures JsonExpressible(r)
  {
    if WeightKey in store && store[WeightKey].WeightJson? then
      EncodeDecode(store[WeightKey].entries);
      DecodeWeights(store[WeightKey].entries)
    else []
  }

  /** An empty store loads the documented defaults. */
  lemma EmptyStoreDefaults()
    ensures LoadWorkouts(map[]) == map[]
    ensures LoadNutrition(map[]) == Zeroed
    ensures LoadWeight(map[]) == []
  {
  }

  /**
   * Saving a value under its own key and loading it gives the value back
   * (the weight list as its JSON round trip); the other two loads are unaffected.
   */
  lemma SaveLoadRoundTrip(store: Store, log: map<string, bool>, n: Nutrition, samples: seq<WeightEntry>)
    ensures LoadWorkouts(store[WorkoutsKey := WorkoutsJson(log)]) == log
    ensures LoadNutrition(store[WorkoutsKey := WorkoutsJson(log)]) == LoadNutrition(store)
    ensures LoadWeight(store[WorkoutsKey := WorkoutsJson(log)]) == LoadWeight(store)
    ensures LoadNutrition(store[NutritionKey := NutritionJson(n)]) == n
    ensures LoadWorkouts(store[NutritionKey := NutritionJson(n)]) == LoadWorkouts(store)
    ensures LoadWeight(store[NutritionKey := NutritionJson(n)]) == LoadWeight(store)
    ensures LoadWeight(store[WeightKey := WeightJson(EncodeWeights(samples))]) == DecodeWeights(EncodeWeights(samples))
    ensures LoadWorkouts(store[WeightKey := WeightJson(EncodeWeights(samples))]) == LoadWorkouts(store)
    ensures LoadNutrition(store[WeightKey := WeightJson(EncodeWeights(samples))]) == LoadNutrition(store)
  {
  }
}

=== FILE: tracker.dfy ===
/**
 * The tracker component's state and its event handlers. Each handler builds
 * the new value of one tracked field from the old one, replaces the field,
 * and writes the new value to the store under that field's own key.
 */
module Tracker {
  import opened Logs
  import opened Storage
  import opened MealScan
  import opened Wrappers

  class App {
    /** Completion flag per date key. */
    var workouts: map<string, bool>
    /** Today's running nutrition record. */
    var nutrition: Nutrition
    /** Weight samples, oldest first. */
    var weight: seq<WeightEntry>
    /** The text in the weight field. */
    var weightInput: string
    /** The scanner's error message; empty when there is none. */
    var aiError: string
    /** The browser's local storage. */
    var store: Store

    /**
     * Every tracked field equals what loading it back from the store gives;
     * for the weight list, what its JSON round trip gives.
     */
    ghost predicate Persisted()
      reads this
    {
      && LoadWorkouts(store) == workouts
      && LoadNutrition(store) == nutrition
      && LoadWeight(store) == DecodeWeights(EncodeWeights(weight))
    }

    /** Start-up: each field is loaded from the store, or takes its default. */
    constructor (saved: Store)
      ensures store == saved
      ensures workouts == LoadWorkouts(saved) && nutrition == LoadNutrition(saved) && weight == LoadWeight(saved)
      ensures WorkoutsKey !in saved ==> workouts == map[]
      ensures NutritionKey !in saved ==> nutrition == Zeroed && Balanced(nutrition)
      ensures WeightKey !in saved ==> weight == []
      ensures weightInput == "" && aiError == ""
      ensures Persisted()
    {
      workouts := LoadWorkouts(saved);
      nutrition := LoadNutrition(saved);
      weight := LoadWeight(saved);
      weightInput := "";
      aiError := "";
      store := saved;
      ZeroedIsBalanced();
      WeightRoundTrip(LoadWeight(saved));
    }

    /** Whether today's workout shows as done. */
    function IsWorkoutComplete(dateKey: string): (r: bool)
      reads this
      ensures dateKey !in workouts ==> !r
      ensures dateKey in workouts ==> r == workouts[dateKey]
    {
      IsComplete(workouts, dateKey)
    }

    /** Marks the workout of `dateKey` done and saves the whole log. */
    method CompleteWorkout(dateKey: string)
      modifies this
      ensures workouts == MarkComplete(old(workouts), dateKey)
      ensures IsWorkoutComplete(dateKey)
      ensures forall k :: k in old(workouts) && k != dateKey ==> k in workouts && workouts[k] == old(workouts)[k]
      ensures old(IsWorkoutComplete(dateKey)) ==> workouts == old(workouts)
      ensures old(IsWorkoutComplete(dateKey)) && old(Persisted()) ==> store == old(store)
      ensures store == old(store)[WorkoutsKey := WorkoutsJson(workouts)]
      ensures nutrition == old(nutrition) && weight == old(weight)
      ensures weightInput == old(weightInput) && aiError == old(aiError)
      ensures old(Persisted()) ==> Persisted()
    {
      var updated := MarkComplete(workouts, dateKey);
      workouts := updated;
      store := store[WorkoutsKey := WorkoutsJson(updated)];
      SaveLoadRoundTrip(old(store), updated, nutrition, weight);
    }

    /** Adds a meal to today's totals and list and saves the record. */
    method AddMeal(meal: Meal)
      modifies this
      ensures nutrition == WithMeal(old(nutrition), meal)
      ensures nutrition.calories == old(nutrition).calories + meal.calories
      ensures nutrition.protein == old(nutrition).protein + meal.protein
      ensures nutrition.meals == old(nutrition).meals + [meal]
      ensures old(Balanced(nutrition)) ==> Balanced(nutrition)
      ensures store == old(store)[NutritionKey := NutritionJson(nutrition)]
      ensures workouts == old(workouts) && weight == old(weight)
      ensures weightInput == old(weightInput) && aiError == old(aiError)
      ensures old(Persisted()) ==> Persisted()
    {
      var updated := WithMeal(nutrition, meal);
      if Balanced(nutrition) {
        WithMealKeepsBalanced(nutrition, meal);
      }
      nutrition := updated;
      store := store[NutritionKey := NutritionJson(updated)];
      SaveLoadRoundTrip(old(store), workouts, updated, weight);
    }

    /** Adds the weight typed in, if any, under `dateKey`; `parseFloat` reads the text. */
    method AddWeight(dateKey: string, parseFloat: string -> Reading)
      modifies this
      ensures weight == LogWeight(old(weight), dateKey, old(weightInput), parseFloat(old(weightInput)))
      ensures old(weightInput) == "" ==> weight == old(weight) && store == old(store)
      ensures old(weightInput) != "" ==>
        && weight == old(weight) + [WeightEntry(dateKey, parseFloat(old(weightInput)))]
        && store == old(store)[WeightKey := WeightJson(EncodeWeights(weight))]
      ensures weightInput == ""
      ensures workouts == old(workouts) && nutrition == old(nutrition) && aiError == old(aiError)
      ensures old(Persisted()) ==> Persisted()
    {
      if weightInput == "" {
        return;
      }
      var entry := WeightEntry(dateKey, parseFloat(weightInput));
      var updated := weight + [entry];
      weight := updated;
      store := store[WeightKey := WeightJson(EncodeWeights(updated))];
      weightInput := "";
      SaveLoadRoundTrip(old(store), workouts, nutrition, updated);
    }

    /** The weight field's text changes. */
    method EnterWeight(text: string)
      modifies this
      ensures weightInput == text
      ensures workouts == old(workouts) && nutrition == old(nutrition) && weight == old(weight)
      ensures aiError == old(aiError) && store == old(store)
    {
      weightInput := text;
    }

    /** Clears today's nutrition record, in memory and in the store. */
    method ResetNutrition()
      modifies this
      ensures nutrition == Zeroed && Balanced(nutrition)
      ensures store == old(store)[NutritionKey := NutritionJson(Zeroed)]
      ensures LoadNutrition(store) == Zeroed
      ensures workouts == old(workouts) && weight == old(weight)
      ensures weightInput == old(weightInput) && aiError == old(aiError)
      ensures old(Persisted()) ==> Persisted()
    {
      nutrition := Zeroed;
      store := store[NutritionKey := NutritionJson(Zeroed)];
      ZeroedIsBalanced();
      SaveLoadRoundTrip(old(store), workouts, Zeroed, weight);
    }

    /**
     * Handles the scanner's reply: the error is cleared, then either the
     * meal is added or the error message is set and nothing else changes.
     */
    method ScanMeal(reply: Reply, parse: string -> Option<MealFields>)
      modifies this
      ensures AnalyzeReply(reply, parse).Accepted? ==>
        && nutrition == WithMeal(old(nutrition), AnalyzeReply(reply, parse).meal)
        && store == old(store)[NutritionKey := NutritionJson(nutrition)]
        && aiError == ""
      ensures AnalyzeReply(reply, parse).Accepted? ==>
        Some(nutrition.meals[|nutrition.meals| - 1]) == ValidateMeal(parse(ExtractJson(reply.text).value).value)
      ensures AnalyzeReply(reply, parse).Rejected? ==>
        && nutrition == old(nutrition) && store == old(store)
        && aiError == AnalyzeReply(reply, parse).message
      ensures old(Balanced(nutrition)) ==> Balanced(nutrition)
      ensures workouts == old(workouts) && weight == old(weight) && weightInput == old(weightInput)
      ensures old(Persisted()) ==> Persisted()
    {
      aiError := "";
      var result := AnalyzeReply(reply, parse);
      match result
      case Accepted(meal) =>
        AddMeal(meal);
      case Rejected(message) =>
        aiError := message;
    }
  }
}

=== FILE: wrappers.dfy ===
/** The optional-value wrapper shared by the other modules. */
module Wrappers {

  /** A value that may be absent: JavaScript's `undefined`/missing field. */
  datatype Option<+T> = None | Some(value: T)
}
